=== FILE: README.md ===
# Metabolomics heatmap: a verified model of the processing in `main()`

`heatmap_app.py` is a Streamlit page. The user uploads a metabolomics CSV and picks
three things: a feature-id column, a compound-name column and a set of sample
(intensity) columns. The page then turns the table into a labelled matrix,
optionally log-compresses it and z-scores every row, and draws it as a heatmap.
This project models that processing and proves its properties in Dafny.

- `tables.dfy` (module `Tables`) is the table `read_csv` leaves behind: unique
  column names and rows of raw cells. A cell is NaN, a number or text. It
  also holds lookup by column name and the list of unknown names a `KeyError`
  reports.
- `frames.dfy` (module `Frames`) is matrix construction, the projection at
  line 62 through the coercion at line 71. Each row label is
  `name + " (" + id + ")"`, with a missing name shown as `Unknown`. Only the
  sample columns are kept, in selection order. Every cell is coerced to a
  number, and a missing or non-numeric cell becomes 0. A sample column named
  `Display_Name` clashes with the label column the step adds, and the step
  then fails with a `KeyError` naming it.
- `transform.dfy` (module `Transform`) holds the two optional steps, in their
  fixed order:
  - `log10(v + 1)` on every cell.
  - Row-wise standardization. Each row is centered on its mean and divided by
    its ddof=1 standard deviation. A deviation of 0 is replaced by 1.
  - It also proves the statistics facts about the standardized rows.
- `layout.dfy` (module `Layout`) holds the expressions around the pipeline:
  - the sidebar's default column choices
  - the chart title
  - the on-screen and PNG heights
- `heatmap.dfy` (module `Heatmap`) is `Run`, the processing part of `main()`.
  It is a method that rebinds the frame step by step, as `main()` rebinds
  `plot_df`. The file also works two small tables through the pipeline.

Several library routines are parameters, not definitions:
- `pd.to_numeric` reading text as a number (`parse`)
- `astype(str)` of a number, per column (`show`), since pandas renders a number by its column's dtype
- `np.log10`
- the square root inside `DataFrame.std`

Arithmetic is exact over `real`. A property that needs something of the square
root says so in its `requires`.

The sidebar is modelled as three inputs:
- a `Selection`: id column, name column, sample columns
- an `Options` record: the two checkboxes
- the parsed table

## Model

| member | source | states |
|---|---|---|
| Tables.IndexOf | heatmap_app.py:62 | the position found holds the name and no earlier position does; there is no position exactly when the name is not a column |
| Tables.Lookup | heatmap_app.py:62 | selecting column `name` of row `i` yields the cell stored under that name |
| Tables.NotFound | heatmap_app.py:62 | the names a `KeyError` reports are exactly the requested names absent from the table, and no more than were requested |
| Frames.Coerce | heatmap_app.py:71 | a number keeps its value; text that parses becomes its value; NaN and unparsable text become exactly 0 |
| Frames.CoercedRow | heatmap_app.py:68-71 | row `i` of the sample columns has one value per sample, value `j` being sample `j`'s cell coerced |
| Frames.CellText | heatmap_app.py:66 | `astype(str)` of a cell: NaN is `nan`, text stays as it is, a number is rendered by its column's routine |
| Frames.BuildFrame | heatmap_app.py:62-71 | `KeyError` exactly when a requested column is unknown (naming exactly those columns) or a sample column is named `Display_Name` (naming it: line 66 overwrites it, line 67 moves it into the index, and line 68 cannot select it). Otherwise: all chosen columns exist; one row per input row, in input order; label `i` is the display name of row `i`'s name and id; the columns are the samples in selection order; cell `(i, j)` is row `i`'s sample `j` coerced |
| Frames.DisplayName | heatmap_app.py:65-66 | a label is the name text (`Unknown` for NaN), then ` (`, then the id text, then `)`, at fixed positions, so it splits back into the two; each number renders by its own column's routine |
| Frames.DuplicateRowsKept | heatmap_app.py:66-67 | two rows with the same name and id keep two equal labels at their own positions; rows are never merged |
| Transform.Mean | heatmap_app.py:79 | the row mean times the number of values is the row total |
| Transform.ConstantRowMean | heatmap_app.py:79 | a constant row has its value as mean |
| Transform.Variance | heatmap_app.py:80 | the ddof=1 variance of a row of two or more values is non-negative |
| Transform.Scale | heatmap_app.py:80 | the divisor of a row is never 0 (`replace(0, 1)`) |
| Transform.StandardizeRow | heatmap_app.py:79-81 | standardization keeps the row length |
| Transform.LogCompress | heatmap_app.py:74-75 | labels, columns and shape are kept, and every cell `v` becomes `log10(v + 1)` on its own |
| Transform.Standardize | heatmap_app.py:78-81 | labels and columns are kept; with fewer than two columns every cell is NaN; otherwise every row is the standardized row |
| Transform.ConstantRowMoments | heatmap_app.py:79-80 | a constant row has its value as mean and variance 0 |
| Transform.VarianceZeroIffConstant | heatmap_app.py:80 | a row's variance is 0 exactly when the row is constant |
| Transform.ScalePolicy | heatmap_app.py:80 | a constant row is divided by 1; any other row is divided by its deviation, which is not 0 |
| Transform.ConstantRowBecomesZeros | heatmap_app.py:78-81 | with two or more columns a constant row standardizes to all zeros, whatever the square root returns |
| Transform.StandardizedRowSumsToZero | heatmap_app.py:78-81 | every standardized row sums to 0 |
| Transform.StandardizedRowUnitVariance | heatmap_app.py:78-81 | a non-constant row standardized with a true square root has mean 0 and sample variance 1 |
| Transform.StandardizedFrameRowsSumToZero | heatmap_app.py:78-81 | every row of a standardized frame with two or more columns sums to 0 |
| Transform.LogCompressKeepsOrder | heatmap_app.py:74-75 | with a log10 increasing on the positive reals (where every `v + 1` of the log domain lies), log compression keeps the order of two cells of a row |
| Layout.DefaultFeatureIdIndex | heatmap_app.py:32 | the default id index is 1 exactly when there are two or more columns, else 0, and lies inside the column list |
| Layout.DefaultCompoundNameIndex | heatmap_app.py:33 | the default name index is `min(36, n - 1)` and lies inside the column list |
| Layout.DefaultSamples | heatmap_app.py:36 | with 20 or more columns the default samples are the 18 columns from the third to the twentieth, in order; otherwise none |
| Layout.DefaultSelection | heatmap_app.py:32-36 | every default choice is a column of the table |
| Layout.DefaultSelectionSeparate | heatmap_app.py:32-36 | with three or more distinct columns, except exactly twenty, the defaults share no column |
| Layout.DefaultSelectionOverlapsAtOne | heatmap_app.py:32-33 | with one column the default id and name are both that column |
| Layout.DefaultSelectionOverlapsAtTwo | heatmap_app.py:32-33 | with two columns the default id and name are the same column |
| Layout.DefaultSelectionOverlapsAtTwenty | heatmap_app.py:33-36 | with twenty columns the default name column is also the last default sample column |
| Layout.Title | heatmap_app.py:91 | the title is 20 characters long plus 11 with standardization and 6 with log; it starts with `Heatmap: ` and ends with `Intensities`; it has `Normalized ` after the prefix exactly when standardization is on, and `Log10 ` before the suffix exactly when log is on |
| Layout.TitleDeterminesSettings | heatmap_app.py:91 | different settings give different titles |
| Layout.FigureHeight | heatmap_app.py:95 | the height is at least 600 and at least `15 * rows + 200`, and equals one of the two |
| Layout.FigureHeightMonotone | heatmap_app.py:95 | more rows never give a shorter figure |
| Layout.PngHeight | heatmap_app.py:113 | the PNG height is at least 800 and at least `20 * rows`, and equals one of the two |
| Layout.PngNotShorterThanFigure | heatmap_app.py:95-113 | the PNG export is never shorter than the on-screen figure |
| Heatmap.CompressedRow | heatmap_app.py:71-75 | a row after coercion and the optional log step has one value per sample column |
| Heatmap.PlainRowIsCoerced | heatmap_app.py:71-75 | without the log step each value is the coerced cell itself |
| Heatmap.Run | heatmap_app.py:43-113 | a warning exactly when no sample is chosen; the critical error exactly when a column is unknown (naming exactly those) or a sample is named `Display_Name` (naming it); otherwise one labelled row per input row in order, the samples as columns, the log step before standardization, and the title and heights by their formulas (details below) |
| Heatmap.GlucoseTableShape | heatmap_app.py:62 | the example table is well formed and every column it asks for exists |
| Heatmap.GlucoseLookups | heatmap_app.py:62 | the example row's cells under each column name |
| Heatmap.GlucoseCells | heatmap_app.py:62-71 | the example builds one row labelled `Glucose (F1)` with the S1 cell coerced and 20 |
| Heatmap.GlucoseFrame | heatmap_app.py:62-71 | the example builds exactly that frame |
| Heatmap.GlucoseLabel | heatmap_app.py:66 | name `Glucose` and id `F1` give the label `Glucose (F1)` |
| Heatmap.GlucoseLogRow | heatmap_app.py:74-75 | the example row log-compresses to `log10(x + 1)` and `log10(21)` under the same label |
| Heatmap.GlucoseScenario | heatmap_app.py:62-75 | intensities 10 and 20 build to `[10, 20]` and compress to `log10(11)` and `log10(21)` |
| Heatmap.EmptyCellScenario | heatmap_app.py:62-75 | an empty S1 cell builds to 0 and compresses to `log10(1)` |
| Heatmap.UnknownNameLabel | heatmap_app.py:65-66 | a missing name with id `F001` is labelled `Unknown (F001)` |
| Heatmap.ColumnTypedLabel | heatmap_app.py:66 | the value 1 in an integer name column and in a float id column labels the row `1 (1.0)` |

What `Heatmap.Run` states:
- It ends in a warning exactly when no sample column is chosen, and then builds nothing.
- It ends in the critical error exactly when samples are chosen and either some requested column is unknown or a sample column is named `Display_Name`. With unknown columns the error names exactly those; otherwise it names `Display_Name`.
- When it renders:
  - every chosen column exists, and no sample column is named `Display_Name`
  - there is one labelled row per input row, in input order, with the label from row `i`'s name and id
  - the columns are the samples, in selection order
  - the title and both heights follow their formulas for the row count
- With standardization off, row `i` is the coerced row, log-compressed when log is on.
- With standardization on:
  - every cell is NaN exactly when fewer than two samples are chosen
  - otherwise row `i` is the standardization of that log-compressed row, so log always runs first

## Left out

- The Streamlit interface is not modelled: widgets, sidebar headers, messages, previews, download buttons, logo and footer. The widget results are the inputs `Selection` and `Options`, and the warning and critical error are `Outcome` values.
- The colour palette and font-size widgets are left out, because they only affect drawing.
- Only the title and the two heights of `px.imshow`, `update_layout` and the kaleido export are kept. `xaxis_nticks`, `yaxis_autorange`, fonts, colours and the SVG/PDF/PNG bytes are foreign rendering calls.
- CSV reading is not modelled; the model starts from a parsed table. The processed-CSV download is left out too, because it depends on pandas' float-to-text formatting.
- Floating point is not modelled. `log10` and the square root are parameters and arithmetic is exact over `real`.
- `Run` (through `LogDomain`) and `Transform.LogCompress` (through `LogDefined`) demand that every coerced value is above -1 when log is on, because `log10(v + 1)` is `-inf` at -1 and NaN below it, and neither is a real.
- Infinite and NaN numbers inside the table are not modelled: a numeric cell holds a real, and `parse` yields reals only.
- `Transform.ScalePolicy` and `Transform.StandardizedRowUnitVariance` assume properties of the square root (`sqrt(0) = 0`, `sqrt(v)^2 = v`), because the library routine is a parameter.
- `Run` assumes a separate selection. That means the id and name columns differ, neither is among the samples, and no sample repeats. When they overlap, pandas builds duplicate columns at lines 62 and 68, and that behaviour is not modelled. The defaults overlap like this with exactly 1, 2 or 20 columns (`Layout.DefaultSelectionOverlapsAtOne`, `Layout.DefaultSelectionOverlapsAtTwo`, `Layout.DefaultSelectionOverlapsAtTwenty`).
- The text of the `KeyError` message is not modelled, only the list of unknown names it carries. Other exceptions caught at lines 130-131, such as a malformed upload, belong to CSV reading and are not modelled.
- How `astype(str)` renders a number is left abstract: `show` takes the column name, so the rendering may differ by column as it does by dtype, but the dtypes `read_csv` infers are not modelled. NaN renders as `nan`, which is what an empty id cell shows in a label.
- Columns in the table that repeat a name are assumed already renamed by `read_csv`, so column names are unique.

=== FILE: frames.dfy ===
/** Matrix construction: project the table onto the chosen columns, label each
    row "<compound name> (<feature id>)" and coerce every sample cell to a
    number, zero when it is missing or not numeric. */
module Frames {
  import opened Tables

  /** The three column choices of the sidebar. */
  datatype Selection = Selection(featureId: string, compoundName: string, samples: seq<string>)

  /** The selections this model covers: the id and name columns differ and
      neither is a sample column, and no sample column is chosen twice (the
      multiselect widget never returns one twice). */
  predicate Separate(sel: Selection) {
    && sel.featureId != sel.compoundName
    && sel.featureId !in sel.samples
    && sel.compoundName !in sel.samples
    && forall j, k :: 0 <= j < k < |sel.samples| ==> sel.samples[j] != sel.samples[k]
  }

  /** The column list the frame is projected onto: name, id, then samples. */
  function Requested(sel: Selection): seq<string> {
    [sel.compoundName, sel.featureId] + sel.samples
  }

  /** Every chosen column is a column of the table. */
  predicate Available(t: Table, sel: Selection) {
    && sel.compoundName in t.columns
    && sel.featureId in t.columns
    && forall n :: n in sel.samples ==> n in t.columns
  }

  /** A labelled numeric matrix: one label per row, one name per column. */
  datatype Frame = Frame(labels: seq<string>, columns: seq<string>, values: seq<seq<real>>)

  predicate Shaped(f: Frame) {
    && |f.values| == |f.labels|
    && forall i :: 0 <= i < |f.values| ==> |f.values[i]| == |f.columns|
  }

  /** Outcome of the projection: the frame, or the KeyError naming the
      requested columns the table does not have. */
  datatype Built = Ok(frame: Frame) | KeyError(missing: seq<string>)

  /** `astype(str)` of a cell: text stays as it is, a number is rendered by
      `show`, the library's number-to-text routine for the cell's column,
      and NaN becomes "nan". */
  function CellText(c: Cell, show: real -> string): (r: string)
    ensures c.Missing? ==> r == "nan"
    ensures c.Num? ==> r == show(c.x)
    ensures c.Text? ==> r == c.s
  {
    match c
    case Missing => "nan"
    case Num(x) => show(x)
    case Text(s) => s
  }

  /** The text the name contributes: "Unknown" for NaN (`fillna`), otherwise
      the cell as text. */
  function NameText(name: Cell, show: real -> string): string {
    if name.Missing? then "Unknown" else CellText(name, show)
  }

  /** The row label: the name (NaN filled with "Unknown"), " (", the id as
      text (not filled), ")". A number renders by its own column's routine
      (`showName`, `showId`): pandas renders by the column's dtype. The label
      splits back into the name text and the id text by position, so no
      information about the two columns is lost in it. */
  function DisplayName(name: Cell, id: Cell, showName: real -> string, showId: real -> string): (s: string)
    ensures var n := NameText(name, showName);
            var k := CellText(id, showId);
            && |s| == |n| + |k| + 3
            && s[..|n|] == n
            && s[|n|..|n| + 2] == " ("
            && s[|n| + 2..|s| - 1] == k
            && s[|s| - 1] == ')'
  {
    NameText(name, showName) + " (" + CellText(id, showId) + ")"
  }

  /** `to_numeric(errors='coerce')` followed by `fillna(0)` on one cell;
      `parse` is the library's reading of text as a number. */
  function Coerce(c: Cell, parse: string -> Option<real>): (v: real)
    ensures c.Num? ==> v == c.x
    ensures c.Text? && parse(c.s).Some? ==> v == parse(c.s).value
    ensures c.Missing? || (c.Text? && parse(c.s).None?) ==> v == 0.0
  {
    match c
    case Missing => 0.0
    case Num(x) => x
    case Text(s) => if parse(s).Some? then parse(s).value else 0.0
  }

  /** Row `i` of the chosen sample columns, every cell coerced. */
  function CoercedRow(t: Table, sel: Selection, parse: string -> Option<real>, i: nat): (r: seq<real>)
    requires WellFormed(t) && i < |t.rows| && Available(t, sel)
    ensures |r| == |sel.samples|
    ensures forall j :: 0 <= j < |sel.samples| ==> r[j] == Coerce(Lookup(t, i, sel.samples[j]), parse)
  {
    seq(|sel.samples|, j requires 0 <= j < |sel.samples| => Coerce(Lookup(t, i, sel.samples[j]), parse))
  }

  /** The name of the label column the step adds and then moves into the
      index. A sample column of that name is overwritten by the labels and
      leaves the columns with them, so selecting the samples afterwards
      fails with a `KeyError` naming it. */
  const LabelColumn: string := "Display_Name"

  /** The projection, labelling and coercion step. Unknown columns fail the
      projection first; a sample column named like the label column fails
      the selection of the samples after the labels are set. */
  function BuildFrame(t: Table, sel: Selection, parse: string -> Option<real>, show: string -> real -> string): (r: Built)
    requires WellFormed(t) && Separate(sel)
    ensures r.KeyError? <==> (exists n :: n in Requested(sel) && n !in t.columns) || LabelColumn in sel.samples
    ensures r.KeyError? ==> r.missing != []
    ensures r.KeyError? && (exists n :: n in Requested(sel) && n !in t.columns) ==>
      forall n :: n in r.missing <==> n in Requested(sel) && n !in t.columns
    ensures r.KeyError? && (forall n :: n in Requested(sel) ==> n in t.columns) ==> r.missing == [LabelColumn]
    ensures r.Ok? ==> Available(t, sel) && LabelColumn !in sel.samples
    ensures r.Ok? ==> Shaped(r.frame) && |r.frame.labels| == |t.rows| && r.frame.columns == sel.samples
    ensures r.Ok? ==> forall i :: 0 <= i < |t.rows| ==>
      r.frame.labels[i] == DisplayName(Lookup(t, i, sel.compoundName), Lookup(t, i, sel.featureId), show(sel.compoundName), show(sel.featureId))
    ensures r.Ok? ==> forall i :: 0 <= i < |t.rows| ==> r.frame.values[i] == CoercedRow(t, sel, parse, i)
  {
    var missing := NotFound(t.columns, Requested(sel));
    if missing != [] then
      assert missing[0] in missing;
      KeyError(missing)
    else if LabelColumn in sel.samples then
      KeyError([LabelColumn])
    else
      assert forall n :: n in Requested(sel) ==> n in t.columns;
      assert Available(t, sel) by {
        assert sel.compoundName == Requested(sel)[0] && sel.featureId == Requested(sel)[1];
        forall j | 0 <= j < |sel.samples| ensures sel.samples[j] in t.columns {
          assert sel.samples[j] == Requested(sel)[j + 2];
        }
      }
      var labels := seq(|t.rows|, i requires 0 <= i < |t.rows| =>
        DisplayName(Lookup(t, i, sel.compoundName), Lookup(t, i, sel.featureId), show(sel.compoundName), show(sel.featureId)));
      var values := seq(|t.rows|, i requires 0 <= i < |t.rows| => CoercedRow(t, sel, parse, i));
      Ok(Frame(labels, sel.samples, values))
  }

  /** Rows are never merged: two rows with the same name and id keep two
      identical labels, each at its own position. */
  lemma DuplicateRowsKept(t: Table, sel: Selection, parse: string -> Option<real>, show: string -> real -> string, i: nat, k: nat)
    requires WellFormed(t) && Separate(sel)
    requires BuildFrame(t, sel, parse, show).Ok?
    requires i < k < |t.rows|
    requires Lookup(t, i, sel.compoundName) == Lookup(t, k, sel.compoundName)
    requires Lookup(t, i, sel.featureId) == Lookup(t, k, sel.featureId)
    ensures var f := BuildFrame(t, sel, parse, show).frame;
            |f.labels| == |t.rows| && f.labels[i] == f.labels[k]
  {
  }
}

=== FILE: heatmap.dfy ===
/** One run of the app's processing, from a loaded table and the sidebar's
    choices to the matrix, title and heights handed to the chart. */
module Heatmap {
  import opened Tables
  import opened Frames
  import opened Transform
  import opened Layout

  /** The library routines the pipeline calls and this model does not
      define: reading text as a number (`pd.to_numeric`), rendering a number
      of a given column as text (`astype(str)`, which follows the column's
      dtype), `np.log10` and the square root inside `DataFrame.std`. */
  datatype Primitives = Primitives(
    parse: string -> Option<real>,
    show: string -> real -> string,
    log10: real -> real,
    sqrt: real -> real)

  /** The two processing checkboxes. */
  datatype Options = Options(useLog10: bool, useNormalization: bool)

  datatype Outcome =
    | Warning                                // no sample column: nothing is built
    | CriticalError(missing: seq<string>)    // the KeyError naming the columns it could not select
    | Rendered(plot: Plot, title: string, height: int, pngHeight: int)

  /** A coerced value after the optional log step. */
  function Compressed(v: real, opts: Options, lib: Primitives): real {
    if opts.useLog10 then lib.log10(v + 1.0) else v
  }

  /** Row `i` of the table's sample columns, coerced and log-compressed as
      the options say. */
  function CompressedRow(t: Table, sel: Selection, opts: Options, lib: Primitives, i: nat): (r: seq<real>)
    requires WellFormed(t) && i < |t.rows|
    requires forall n :: n in sel.samples ==> n in t.columns
    ensures |r| == |sel.samples|
  {
    seq(|sel.samples|, j requires 0 <= j < |sel.samples| =>
      Compressed(Coerce(Lookup(t, i, sel.samples[j]), lib.parse), opts, lib))
  }

  /** Without the log step a row is the coerced row: with both steps off
      the chart shows the coerced matrix itself. */
  lemma PlainRowIsCoerced(t: Table, sel: Selection, opts: Options, lib: Primitives, i: nat)
    requires WellFormed(t) && i < |t.rows|
    requires forall n :: n in sel.samples ==> n in t.columns
    requires !opts.useLog10
    ensures forall j :: 0 <= j < |sel.samples| ==>
      CompressedRow(t, sel, opts, lib, i)[j] == Coerce(Lookup(t, i, sel.samples[j]), lib.parse)
  {
  }

  /** Every coerced sample value is above -1, where log10(v + 1) is real. */
  predicate LogDomain(t: Table, sel: Selection, parse: string -> Option<real>)
    requires WellFormed(t)
  {
    forall i, j :: 0 <= i < |t.rows| && 0 <= j < |sel.samples| && sel.samples[j] in t.columns ==>
      Coerce(Lookup(t, i, sel.samples[j]), parse) > -1.0
  }

  /** The processing part of `main()`: guard, projection, coercion, the two
      optional steps in their fixed order, title and heights. */
  method Run(t: Table, sel: Selection, opts: Options, lib: Primitives) returns (out: Outcome)
    requires WellFormed(t) && Separate(sel)
    requires opts.useLog10 ==> LogDomain(t, sel, lib.parse)
    ensures out.Warning? <==> sel.samples == []
    ensures out.CriticalError? <==>
      sel.samples != [] && ((exists n :: n in Requested(sel) && n !in t.columns) || LabelColumn in sel.samples)
    ensures out.CriticalError? && (exists n :: n in Requested(sel) && n !in t.columns) ==>
      forall n :: n in out.missing <==> n in Requested(sel) && n !in t.columns
    ensures out.CriticalError? && (forall n :: n in Requested(sel) ==> n in t.columns) ==> out.missing == [LabelColumn]
    ensures out.Rendered? ==>
      && Available(t, sel) && LabelColumn !in sel.samples
      && |out.plot.Labels()| == |t.rows|
      && (forall i :: 0 <= i < |t.rows| ==>
            out.plot.Labels()[i] == DisplayName(Lookup(t, i, sel.compoundName), Lookup(t, i, sel.featureId), lib.show(sel.compoundName), lib.show(sel.featureId)))
      && out.plot.Columns() == sel.samples
      && out.title == Title(opts.useNormalization, opts.useLog10)
      && out.height == FigureHeight(|t.rows|)
      && out.pngHeight == PngHeight(|t.rows|)
    ensures out.Rendered? && !opts.useNormalization ==>
      && out.plot.Numbers? && Shaped(out.plot.frame)
      && forall i :: 0 <= i < |t.rows| ==> out.plot.frame.values[i] == CompressedRow(t, sel, opts, lib, i)
    ensures out.Rendered? && opts.useNormalization ==> (out.plot.AllNaN? <==> |sel.samples| < 2)
    ensures out.Rendered? && opts.useNormalization && out.plot.Numbers? ==>
      && Shaped(out.plot.frame)
      && forall i :: 0 <= i < |t.rows| ==>
           out.plot.frame.values[i] == StandardizeRow(CompressedRow(t, sel, opts, lib, i), lib.sqrt)
  {
    if sel.samples == [] {
      return Warning;
    }
    var built := BuildFrame(t, sel, lib.parse, lib.show);
    if built.KeyError? {
      return CriticalError(built.missing);
    }
    var plotFrame := built.frame;
    if opts.useLog10 {
      assert LogDefined(plotFrame);
      plotFrame := LogCompress(plotFrame, lib.log10);
    }
    forall i | 0 <= i < |t.rows| ensures plotFrame.values[i] == CompressedRow(t, sel, opts, lib, i) {
      assert |plotFrame.values[i]| == |sel.samples|;
    }
    var plot := Numbers(plotFrame);
    if opts.useNormalization {
      plot := Standardize(plotFrame, lib.sqrt);
    }
    var rows := |plotFrame.values|;
    out := Rendered(plot, Title(opts.useNormalization, opts.useLog10), FigureHeight(rows), PngHeight(rows));
  }

  /** A table with one compound "Glucose", id "F1", and intensities `s1`
      and 20 in columns S1 and S2. */
  function GlucoseTable(s1: Cell): Table {
    Table(["ID", "Name", "S1", "S2"], [[Text("F1"), Text("Glucose"), s1, Num(20.0)]])
  }

  /** Id column "ID", name column "Name", samples S1 and S2. */
  function GlucoseSelection(): Selection {
    Selection("ID", "Name", ["S1", "S2"])
  }

  /** The Glucose frame with intensity `x` in S1, as built. */
  function GlucoseBuilt(x: real): Frame {
    Frame(["Glucose (F1)"], ["S1", "S2"], [[x, 20.0]])
  }

  lemma GlucoseTableShape(s1: Cell)
    ensures WellFormed(GlucoseTable(s1)) && Separate(GlucoseSelection())
    ensures forall n :: n in Requested(GlucoseSelection()) ==> n in GlucoseTable(s1).columns
    ensures LabelColumn !in GlucoseSelection().samples
  {
    var c := GlucoseTable(s1).columns;
    assert c[0] != c[2] by { assert c[0][0] != c[2][0]; }
    assert c[0] != c[3] by { assert c[0][0] != c[3][0]; }
    assert c[2] != c[3] by { assert c[2][1] != c[3][1]; }
    assert Requested(GlucoseSelection()) == [c[1], c[0], c[2], c[3]];
    assert LabelColumn != c[2] && LabelColumn != c[3] by { assert LabelColumn[0] != c[2][0] && LabelColumn[0] != c[3][0]; }
  }

  /** The cells of the Glucose row under each column name. */
  lemma GlucoseLookups(s1: Cell)
    ensures WellFormed(GlucoseTable(s1)) && Separate(GlucoseSelection())
    ensures forall n :: n in Requested(GlucoseSelection()) ==> n in GlucoseTable(s1).columns
    ensures LabelColumn !in GlucoseSelection().samples
    ensures Lookup(GlucoseTable(s1), 0, "Name") == Text("Glucose")
    ensures Lookup(GlucoseTable(s1), 0, "ID") == Text("F1")
    ensures Lookup(GlucoseTable(s1), 0, "S1") == s1
    ensures Lookup(GlucoseTable(s1), 0, "S2") == Num(20.0)
  {
    GlucoseTableShape(s1);
    var t := GlucoseTable(s1);
    assert t.columns[0] == "ID" && t.columns[1] == "Name" && t.columns[2] == "S1" && t.columns[3] == "S2";
  }

  /** The Glucose row as built, cell by cell. */
  lemma GlucoseCells(s1: Cell, lib: Primitives)
    ensures WellFormed(GlucoseTable(s1)) && Separate(GlucoseSelection())
    ensures var b := BuildFrame(GlucoseTable(s1), GlucoseSelection(), lib.parse, lib.show);
            && b.Ok?
            && |b.frame.labels| == 1 && b.frame.labels[0] == "Glucose (F1)" && b.frame.columns == ["S1", "S2"]
            && |b.frame.values| == 1 && |b.frame.values[0]| == 2
            && b.frame.values[0][0] == Coerce(s1, lib.parse) && b.frame.values[0][1] == 20.0
  {
    GlucoseLookups(s1);
    GlucoseLabel(lib.show);
    var b := BuildFrame(GlucoseTable(s1), GlucoseSelection(), lib.parse, lib.show);
    assert b.Ok?;
    assert b.frame.values[0][1] == Coerce(Num(20.0), lib.parse);
  }

  /** The Glucose row as built: label "Glucose (F1)", values `s1` coerced
      and 20. */
  lemma GlucoseFrame(s1: Cell, lib: Primitives)
    ensures WellFormed(GlucoseTable(s1)) && Separate(GlucoseSelection())
    ensures BuildFrame(GlucoseTable(s1), GlucoseSelection(), lib.parse, lib.show)
         == Ok(GlucoseBuilt(Coerce(s1, lib.parse)))
  {
    GlucoseCells(s1, lib);
    GlucoseBuiltByCells(BuildFrame(GlucoseTable(s1), GlucoseSelection(), lib.parse, lib.show).frame, Coerce(s1, lib.parse));
  }

  /** A frame is the Glucose frame once its label, columns and two cells
      are known. */
  lemma GlucoseBuiltByCells(f: Frame, x: real)
    requires |f.labels| == 1 && f.labels[0] == "Glucose (F1)" && f.columns == ["S1", "S2"]
    requires |f.values| == 1 && |f.values[0]| == 2 && f.values[0][0] == x && f.values[0][1] == 20.0
    ensures f == GlucoseBuilt(x)
  {
    assert f.labels == ["Glucose (F1)"];
    assert f.values[0] == [x, 20.0];
  }

  /** The Glucose row's label. */
  lemma GlucoseLabel(show: string -> real -> string)
    ensures DisplayName(Text("Glucose"), Text("F1"), show("Name"), show("ID")) == "Glucose (F1)"
  {
  }

  /** Log compression of the Glucose frame: one row, log10(x + 1) and
      log10(21). */
  lemma GlucoseLogRow(x: real, lib: Primitives)
    requires x > -1.0
    ensures Shaped(GlucoseBuilt(x)) && LogDefined(GlucoseBuilt(x))
    ensures var g := LogCompress(GlucoseBuilt(x), lib.log10);
            && g.labels == ["Glucose (F1)"]
            && |g.values| == 1
            && g.values[0][0] == lib.log10(x + 1.0)
            && g.values[0][1] == lib.log10(21.0)
  {
    var f := GlucoseBuilt(x);
    assert LogDefined(f);
    var g := LogCompress(f, lib.log10);
    assert g.values[0][0] == lib.log10(f.values[0][0] + 1.0);
    assert g.values[0][1] == lib.log10(f.values[0][1] + 1.0);
  }

  /** Intensities 10 and 20: the built row is [10, 20] and log compression
      turns it into [log10(11), log10(21)]. */
  lemma GlucoseScenario(lib: Primitives)
    ensures BuildFrame(GlucoseTable(Num(10.0)), GlucoseSelection(), lib.parse, lib.show) == Ok(GlucoseBuilt(10.0))
    ensures Shaped(GlucoseBuilt(10.0)) && LogDefined(GlucoseBuilt(10.0))
    ensures LogCompress(GlucoseBuilt(10.0), lib.log10).values[0][0] == lib.log10(11.0)
    ensures LogCompress(GlucoseBuilt(10.0), lib.log10).values[0][1] == lib.log10(21.0)
  {
    GlucoseFrame(Num(10.0), lib);
    assert Coerce(Num(10.0), lib.parse) == 10.0;
    GlucoseLogRow(10.0, lib);
  }

  /** An empty S1 cell is coerced to 0 and log-compressed to log10(1). */
  lemma EmptyCellScenario(lib: Primitives)
    ensures BuildFrame(GlucoseTable(Missing), GlucoseSelection(), lib.parse, lib.show) == Ok(GlucoseBuilt(0.0))
    ensures Shaped(GlucoseBuilt(0.0)) && LogDefined(GlucoseBuilt(0.0))
    ensures LogCompress(GlucoseBuilt(0.0), lib.log10).values[0][0] == lib.log10(1.0)
  {
    GlucoseFrame(Missing, lib);
    assert Coerce(Missing, lib.parse) == 0.0;
    GlucoseLogRow(0.0, lib);
  }

  /** A missing name with id "F001" is labelled "Unknown (F001)". */
  lemma UnknownNameLabel(show: string -> real -> string)
    ensures DisplayName(Missing, Text("F001"), show("Name"), show("ID")) == "Unknown (F001)"
  {
  }

  /** Numbers render by their column: the same value 1 in an integer name
      column and in a float id column (one with an empty cell) gives the
      label "1 (1.0)". */
  lemma ColumnTypedLabel(show: string -> real -> string)
    requires show("Name")(1.0) == "1" && show("ID")(1.0) == "1.0"
    ensures DisplayName(Num(1.0), Num(1.0), show("Name"), show("ID")) == "1 (1.0)"
  {
  }
}

=== FILE: layout.dfy ===
/** The integer and list formulas around the pipeline: the sidebar's default
    column choices, the chart title, and the on-screen and PNG heights. */
module Layout {
  import opened Frames

  /** Default position of the feature-id column among `n` columns. */
  function DefaultFeatureIdIndex(n: nat): (r: nat)
    ensures n >= 1 ==> r < n
    ensures r == 1 <==> n >= 2
    ensures r == 0 <==> n < 2
  {
    if n > 1 then 1 else 0
  }

  /** Default position of the compound-name column: the 37th column, or the
      last one when there are fewer. */
  function DefaultCompoundNameIndex(n: nat): (r: int)
    ensures n >= 1 ==> 0 <= r < n
    ensures r <= 36
    ensures n >= 37 ==> r == 36
    ensures n <= 37 ==> r == n - 1
  {
    if 36 < n - 1 then 36 else n - 1
  }

  /** Default sample columns: the 3rd to the 20th column when there are at
      least 20 columns, none otherwise. */
  function DefaultSamples(columns: seq<string>): (r: seq<string>)
    ensures |columns| >= 20 ==> |r| == 18 && forall k :: 0 <= k < 18 ==> r[k] == columns[k + 2]
    ensures |columns| < 20 ==> r == []
  {
    if |columns| >= 20 then columns[2..20] else []
  }

  /** The default selection for a table's column list: every default is
      one of the table's columns. */
  function DefaultSelection(columns: seq<string>): (r: Selection)
    requires |columns| >= 1
    ensures r.featureId in columns && r.compoundName in columns
    ensures forall n :: n in r.samples ==> n in columns
  {
    var r := Selection(columns[DefaultFeatureIdIndex(|columns|)],
                       columns[DefaultCompoundNameIndex(|columns|)],
                       DefaultSamples(columns));
    assert forall k :: 0 <= k < |r.samples| ==> r.samples[k] == columns[k + 2];
    r
  }

  /** With three or more distinct column names, except exactly twenty, the
      defaults never share a column: id, name and samples are separate. */
  lemma DefaultSelectionSeparate(columns: seq<string>)
    requires |columns| >= 3 && |columns| != 20
    requires forall k, l :: 0 <= k < l < |columns| ==> columns[k] != columns[l]
    ensures Separate(DefaultSelection(columns))
  {
    var n := |columns|;
    var sel := DefaultSelection(columns);
    var c := DefaultCompoundNameIndex(n);
    assert sel.featureId == columns[1] && sel.compoundName == columns[c] && c >= 2;
    if n >= 20 {
      assert c >= 20;
      forall j | 0 <= j < |sel.samples| ensures sel.samples[j] != sel.featureId && sel.samples[j] != sel.compoundName {
        assert sel.samples[j] == columns[j + 2];
      }
    }
  }

  /** With a single column the default id and name are both that column. */
  lemma DefaultSelectionOverlapsAtOne(columns: seq<string>)
    requires |columns| == 1
    ensures DefaultSelection(columns).featureId == DefaultSelection(columns).compoundName == columns[0]
    ensures !Separate(DefaultSelection(columns))
  {
  }

  /** With exactly two columns the default id and name are both the second
      column. */
  lemma DefaultSelectionOverlapsAtTwo(columns: seq<string>)
    requires |columns| == 2
    ensures DefaultSelection(columns).featureId == DefaultSelection(columns).compoundName == columns[1]
    ensures !Separate(DefaultSelection(columns))
  {
  }

  /** With exactly 20 columns the default name column (index 19) is also the
      last default sample column, so the defaults are not separate. */
  lemma DefaultSelectionOverlapsAtTwenty(columns: seq<string>)
    requires |columns| == 20
    ensures DefaultSelection(columns).compoundName == DefaultSelection(columns).samples[17]
    ensures !Separate(DefaultSelection(columns))
  {
    var sel := DefaultSelection(columns);
    assert sel.compoundName == columns[19] == sel.samples[17];
    assert sel.compoundName in sel.samples;
  }

  /** The chart title names the steps that ran, standardization first. */
  function Title(useNormalization: bool, useLog10: bool): (r: string)
    ensures |r| == 20 + (if useNormalization then 11 else 0) + (if useLog10 then 6 else 0)
    ensures |r| >= 20 && r[..9] == "Heatmap: " && r[|r| - 11..] == "Intensities"
    ensures useNormalization <==> |r| >= 31 && r[9..20] == "Normalized "
    ensures useLog10 <==> r[|r| - 17..|r| - 11] == "Log10 "
  {
    var r := "Heatmap: " + (if useNormalization then "Normalized " else "") + (if useLog10 then "Log10 " else "") + "Intensities";
    assert !useLog10 ==> r[|r| - 17] == (if useNormalization then 'l' else 't');
    r
  }

  /** Different settings give different titles. */
  lemma TitleDeterminesSettings(n1: bool, l1: bool, n2: bool, l2: bool)
    requires Title(n1, l1) == Title(n2, l2)
    ensures n1 == n2 && l1 == l2
  {
  }

  /** On-screen figure height for a matrix of `rows` rows. */
  function FigureHeight(rows: nat): (h: int)
    ensures h >= 600 && h >= 15 * rows + 200
    ensures h == 600 || h == 15 * rows + 200
  {
    if 15 * rows + 200 > 600 then 15 * rows + 200 else 600
  }

  /** PNG export height for a matrix of `rows` rows. */
  function PngHeight(rows: nat): (h: int)
    ensures h >= 800 && h >= 20 * rows
    ensures h == 800 || h == 20 * rows
  {
    if 20 * rows > 800 then 20 * rows else 800
  }

  lemma FigureHeightMonotone(a: nat, b: nat)
    requires a <= b
    ensures FigureHeight(a) <= FigureHeight(b)
  {
  }

  /** The PNG export is never shorter than the on-screen figure. */
  lemma PngNotShorterThanFigure(rows: nat)
    ensures PngHeight(rows) >= FigureHeight(rows)
  {
  }
}

=== FILE: tables.dfy ===
/** The table as pandas' read_csv leaves it: ordered column names and rows of
    raw cells. Column names are unique (read_csv renames a repeated header),
    so a column is found by its name. */
module Tables {

  datatype Option<+T> = None | Some(value: T)

  /** One raw cell: NaN (an empty field), a number, or text. */
  datatype Cell = Missing | Num(x: real) | Text(s: string)

  datatype Table = Table(columns: seq<string>, rows: seq<seq<Cell>>)

  /** Every row has one cell per column, and no column name is repeated. */
  predicate WellFormed(t: Table) {
    && (forall i :: 0 <= i < |t.rows| ==> |t.rows[i]| == |t.columns|)
    && (forall k, l :: 0 <= k < l < |t.columns| ==> t.columns[k] != t.columns[l])
  }

  /** The position of `name` among `names`: the first one, if any. */
  function IndexOf(names: seq<string>, name: string): (r: Option<nat>)
    ensures r.None? <==> name !in names
    ensures r.Some? ==> r.value < |names| && names[r.value] == name
    ensures r.Some? ==> forall k :: 0 <= k < r.value ==> names[k] != name
  {
    if |names| == 0 then None
    else if names[0] == name then Some(0)
    else match IndexOf(names[1..], name)
      case None => None
      case Some(k) => Some(k + 1)
  }

  /** The cell of row `i` under the column called `name` (a label lookup). */
  function Lookup(t: Table, i: nat, name: string): (c: Cell)
    requires WellFormed(t) && i < |t.rows| && name in t.columns
    ensures forall k :: 0 <= k < |t.columns| && t.columns[k] == name ==> c == t.rows[i][k]
  {
    t.rows[i][IndexOf(t.columns, name).value]
  }

  /** The requested names that are not columns of the table: what a
      KeyError on a list selection reports. */
  function NotFound(columns: seq<string>, requested: seq<string>): (r: seq<string>)
    ensures forall n :: n in r <==> n in requested && n !in columns
    ensures |r| <= |requested|
  {
    if requested == [] then []
    else (if requested[0] in columns then [] else [requested[0]]) + NotFound(columns, requested[1..])
  }
}

=== FILE: transform.dfy ===
/** The transform pipeline: optional log compression, then optional row-wise
    standardization (z-scoring with the row mean and the ddof=1 standard
    deviation, a deviation of zero replaced by one). Arithmetic is exact
    over `real`; the library's log10 and square root are parameters. */
module Transform {
  import opened Frames

  function Sum(s: seq<real>): real {
    if |s| == 0 then 0.0 else s[0] + Sum(s[1..])
  }

  /** Row mean (pandas `mean(axis=1)`). */
  function Mean(row: seq<real>): (m: real)
    requires |row| > 0
    ensures m * (|row| as real) == Sum(row)
  {
    Sum(row) / (|row| as real)
  }

  /** The square of `x`, written `x * Copy(x)`. */
  function Sq(x: real): real {
    x * Copy(x)
  }

  /** The identity on reals. */
  function Copy(x: real): real {
    x
  }

  function SquaredDeviations(row: seq<real>, m: real): (d: seq<real>)
    ensures |d| == |row|
    ensures forall i :: 0 <= i < |row| ==> d[i] >= 0.0
  {
    var d := seq(|row|, i requires 0 <= i < |row| => Sq(row[i] - m));
    assert forall i :: 0 <= i < |row| ==> d[i] >= 0.0 by {
      forall i | 0 <= i < |row| ensures d[i] >= 0.0 {
        SqNonNegative(row[i] - m);
      }
    }
    d
  }

  /** Sample variance, divisor n - 1 (pandas `std(axis=1)` squared, ddof=1);
      undefined (NaN) below two values. */
  function Variance(row: seq<real>): (v: real)
    requires |row| >= 2
    ensures v >= 0.0
  {
    SumNonNegative(SquaredDeviations(row, Mean(row)));
    Sum(SquaredDeviations(row, Mean(row))) / ((|row| - 1) as real)
  }

  /** The divisor of a row: its standard deviation `sqrt(Variance(row))`,
      or 1 where that deviation is 0 (`replace(0, 1)`). */
  function Scale(row: seq<real>, sqrt: real -> real): (s: real)
    requires |row| >= 2
    ensures s != 0.0
  {
    var sd := sqrt(Variance(row));
    if sd == 0.0 then 1.0 else sd
  }

  /** One row, centered on its mean and divided by its scale. */
  function StandardizeRow(row: seq<real>, sqrt: real -> real): (z: seq<real>)
    requires |row| >= 2
    ensures |z| == |row|
  {
    var m := Mean(row);
    var s := Scale(row, sqrt);
    seq(|row|, i requires 0 <= i < |row| => (row[i] - m) / s)
  }

  predicate Constant(row: seq<real>) {
    forall i :: 0 <= i < |row| ==> row[i] == row[0]
  }

  /** Every cell lies where log10(v + 1) is a real number. */
  predicate LogDefined(f: Frame) {
    forall i, j :: 0 <= i < |f.values| && 0 <= j < |f.values[i]| ==> f.values[i][j] > -1.0
  }

  /** `np.log10(plot_df + 1)`: every cell on its own. */
  function LogCompress(f: Frame, log10: real -> real): (r: Frame)
    requires Shaped(f) && LogDefined(f)
    ensures Shaped(r) && r.labels == f.labels && r.columns == f.columns
    ensures forall i, j :: 0 <= i < |f.values| && 0 <= j < |f.columns| ==>
      r.values[i][j] == log10(f.values[i][j] + 1.0)
  {
    Frame(f.labels, f.columns,
      seq(|f.values|, i requires 0 <= i < |f.values| =>
        seq(|f.values[i]|, j requires 0 <= j < |f.values[i]| => log10(f.values[i][j] + 1.0))))
  }

  /** What reaches the chart: a numeric frame, or a frame every cell of which
      is NaN (standardizing fewer than two columns: the ddof=1 deviation is
      NaN there and `replace(0, 1)` does not touch it). */
  datatype Plot = Numbers(frame: Frame) | AllNaN(labels: seq<string>, columns: seq<string>)
  {
    function Labels(): seq<string> {
      if Numbers? then frame.labels else labels
    }
    function Columns(): seq<string> {
      if Numbers? then frame.columns else columns
    }
  }

  /** `plot_df.sub(row_mean, axis=0).div(row_std, axis=0)`. */
  function Standardize(f: Frame, sqrt: real -> real): (r: Plot)
    requires Shaped(f)
    ensures r.AllNaN? <==> |f.columns| < 2
    ensures r.Labels() == f.labels && r.Columns() == f.columns
    ensures r.Numbers? ==> Shaped(r.frame) && forall i :: 0 <= i < |f.values| ==>
      r.frame.values[i] == StandardizeRow(f.values[i], sqrt)
  {
    if |f.columns| < 2 then AllNaN(f.labels, f.columns)
    else Numbers(Frame(f.labels, f.columns,
      seq(|f.values|, i requires 0 <= i < |f.values| => StandardizeRow(f.values[i], sqrt))))
  }

  // ---- sums ----

  lemma {:induction false} SumNonNegative(s: seq<real>)
    requires forall i :: 0 <= i < |s| ==> s[i] >= 0.0
    ensures Sum(s) >= 0.0
  {
    if |s| > 0 {
      SumNonNegative(s[1..]);
    }
  }

  /** A sum of non-negative terms is zero only when every term is. */
  lemma {:induction false} SumZeroTermsZero(s: seq<real>)
    requires forall i :: 0 <= i < |s| ==> s[i] >= 0.0
    requires Sum(s) == 0.0
    ensures forall i :: 0 <= i < |s| ==> s[i] == 0.0
  {
    if |s| > 0 {
      SumNonNegative(s[1..]);
      SumZeroTermsZero(s[1..]);
      forall i | 1 <= i < |s| ensures s[i] == 0.0 {
        assert s[i] == s[1..][i - 1];
      }
    }
  }

  /** `n * c` is `(n - 1) * c` plus one more `c`. */
  lemma TimesStep(n: real, c: real)
    ensures n * c == (n - 1.0) * c + c
  {
  }

  /** A sequence of `n` copies of `c` sums to `n * c`. */
  lemma {:induction false} SumConstant(xs: seq<real>, c: real)
    requires forall i :: 0 <= i < |xs| ==> xs[i] == c
    ensures Sum(xs) == (|xs| as real) * c
  {
    if |xs| > 0 {
      SumConstant(xs[1..], c);
      assert (|xs[1..]| as real) == (|xs| as real) - 1.0;
      TimesStep(|xs| as real, c);
    }
  }

  /** Shifting every term by `c` shifts the sum by `n * c`. */
  lemma {:induction false} SumShifted(xs: seq<real>, ys: seq<real>, c: real)
    requires |xs| == |ys|
    requires forall i :: 0 <= i < |xs| ==> ys[i] == xs[i] - c
    ensures Sum(ys) == Sum(xs) - (|xs| as real) * c
  {
    if |xs| > 0 {
      SumShifted(xs[1..], ys[1..], c);
      assert (|xs[1..]| as real) == (|xs| as real) - 1.0;
      TimesStep(|xs| as real, c);
    }
  }

  lemma DivAdd(x: real, y: real, s: real)
    requires s != 0.0
    ensures x / s + y / s == (x + y) / s
  {
  }

  /** Dividing every term by `s` divides the sum by `s`. */
  lemma {:induction false} SumScaled(xs: seq<real>, ys: seq<real>, s: real)
    requires s != 0.0 && |xs| == |ys|
    requires forall i :: 0 <= i < |xs| ==> ys[i] == xs[i] / s
    ensures Sum(ys) == Sum(xs) / s
  {
    if |xs| > 0 {
      SumScaled(xs[1..], ys[1..], s);
      DivAdd(xs[0], Sum(xs[1..]), s);
    }
  }

  lemma SqNonNegative(x: real)
    ensures Sq(x) >= 0.0
  {
  }

  lemma SqPositive(x: real)
    requires x != 0.0
    ensures Sq(x) > 0.0
  {
  }

  lemma SqOfQuotient(x: real, s: real)
    requires s != 0.0
    ensures Sq(s) != 0.0 && Sq(x / s) == Sq(x) / Sq(s)
  {
    var q := x / s;
    assert q * s == x;
    assert Sq(x) == (q * s) * (q * s);
    assert (q * s) * (q * s) == (q * q) * (s * s);
    SqPositive(s);
  }

  // ---- properties of standardization ----

  lemma MeanOfScaledCount(n: real, c: real)
    requires n > 0.0
    ensures (n * c) / n == c
  {
  }

  lemma TimesQuotient(n: real, x: real)
    requires n > 0.0
    ensures n * (x / n) == x
  {
  }

  lemma CancelCount(n: real, a: real, c: real)
    requires n > 0.0 && a * n == n * c
    ensures a == c
  {
  }

  lemma ConstantRowMean(row: seq<real>)
    requires |row| >= 1 && Constant(row)
    ensures Mean(row) == row[0]
  {
    SumConstant(row, row[0]);
    CancelCount(|row| as real, Mean(row), row[0]);
  }

  /** A constant row has its value as mean and a variance of zero. */
  lemma ConstantRowMoments(row: seq<real>)
    requires |row| >= 2 && Constant(row)
    ensures Mean(row) == row[0]
    ensures Variance(row) == 0.0
  {
    ConstantRowMean(row);
    var d := SquaredDeviations(row, Mean(row));
    forall i | 0 <= i < |row| ensures d[i] == 0.0 {
      assert d[i] == Sq(row[i] - row[0]);
    }
    SumConstant(d, 0.0);
    assert Sum(d) == 0.0;
  }

  /** The variance of a row is zero exactly when the row is constant. */
  lemma VarianceZeroIffConstant(row: seq<real>)
    requires |row| >= 2
    ensures Variance(row) == 0.0 <==> Constant(row)
  {
    if Constant(row) {
      ConstantRowMoments(row);
    } else if Variance(row) == 0.0 {
      var m := Mean(row);
      var d := SquaredDeviations(row, m);
      assert Sum(d) == 0.0;
      SumZeroTermsZero(d);
      forall i | 0 <= i < |row| ensures row[i] == m {
        assert d[i] == Sq(row[i] - m) == 0.0;
        if row[i] != m {
          SqPositive(row[i] - m);
        }
      }
      assert false;
    }
  }

  /** The zero-deviation policy: with a square root that maps 0 to 0, a
      constant row is divided by 1; with one that is a true square root of
      the row's variance, any other row is divided by its deviation. */
  lemma ScalePolicy(row: seq<real>, sqrt: real -> real)
    requires |row| >= 2
    requires sqrt(0.0) == 0.0
    requires Sq(sqrt(Variance(row))) == Variance(row)
    ensures Constant(row) ==> Scale(row, sqrt) == 1.0
    ensures !Constant(row) ==> Scale(row, sqrt) == sqrt(Variance(row)) != 0.0
  {
    VarianceZeroIffConstant(row);
  }

  /** With at least two columns, a constant row standardizes to zeros
      (not NaN), whatever the square root returns. */
  lemma ConstantRowBecomesZeros(row: seq<real>, sqrt: real -> real)
    requires |row| >= 2 && Constant(row)
    ensures forall i :: 0 <= i < |row| ==> StandardizeRow(row, sqrt)[i] == 0.0
  {
    ConstantRowMoments(row);
  }

  /** A standardized row sums to zero: it is centered on its mean. */
  lemma StandardizedRowSumsToZero(row: seq<real>, sqrt: real -> real)
    requires |row| >= 2
    ensures Sum(StandardizeRow(row, sqrt)) == 0.0
  {
    var m := Mean(row);
    var s := Scale(row, sqrt);
    var z := StandardizeRow(row, sqrt);
    var w := seq(|row|, i requires 0 <= i < |row| => row[i] - m);
    SumShifted(row, w, m);
    TimesQuotient(|row| as real, Sum(row));
    assert Sum(w) == 0.0;
    SumScaled(w, z, s);
  }

  /** Dividing every deviation by `s` divides their sum of squares by `s`
      squared. */
  lemma SquaredDeviationsScaled(row: seq<real>, m: real, s: real, z: seq<real>)
    requires s != 0.0 && |z| == |row|
    requires forall i :: 0 <= i < |row| ==> z[i] == (row[i] - m) / s
    ensures Sq(s) != 0.0
    ensures Sum(SquaredDeviations(z, 0.0)) == Sum(SquaredDeviations(row, m)) / Sq(s)
  {
    var d := SquaredDeviations(row, m);
    var dz := SquaredDeviations(z, 0.0);
    SqPositive(s);
    forall i | 0 <= i < |row| ensures dz[i] == d[i] / Sq(s) {
      assert dz[i] == Sq(z[i] - 0.0);
      assert z[i] - 0.0 == (row[i] - m) / s;
      SqOfQuotient(row[i] - m, s);
    }
    SumScaled(d, dz, Sq(s));
  }

  /** The arithmetic core of unit variance: a total whose `k`-th part is
      `v`, divided by `v` and then by `k`, gives 1. */
  lemma UnitRatio(total: real, k: real, v: real)
    requires k > 0.0 && v > 0.0 && v == total / k
    ensures (total / v) / k == 1.0
  {
    assert total == v * k;
    MeanOfScaledCount(v, k);
  }

  /** When the row varies and `sqrt` is a true square root of its variance,
      the standardized row has mean 0 and sample variance 1. */
  lemma StandardizedRowUnitVariance(row: seq<real>, sqrt: real -> real)
    requires |row| >= 2 && !Constant(row)
    requires Sq(sqrt(Variance(row))) == Variance(row)
    ensures Mean(StandardizeRow(row, sqrt)) == 0.0
    ensures Variance(StandardizeRow(row, sqrt)) == 1.0
  {
    var z := StandardizeRow(row, sqrt);
    var m := Mean(row);
    var v := Variance(row);
    var s := Scale(row, sqrt);
    StandardizedRowSumsToZero(row, sqrt);
    assert Mean(z) == 0.0;
    VarianceZeroIffConstant(row);
    assert s == sqrt(v) && Sq(s) == v && v > 0.0;
    SquaredDeviationsScaled(row, m, s, z);
    var k := (|row| - 1) as real;
    var total := Sum(SquaredDeviations(row, m));
    assert v == total / k;
    assert Sum(SquaredDeviations(z, Mean(z))) == total / v;
    UnitRatio(total, k, v);
  }

  /** Every row of a standardized frame sums to zero. */
  lemma StandardizedFrameRowsSumToZero(f: Frame, sqrt: real -> real)
    requires Shaped(f) && |f.columns| >= 2
    ensures Standardize(f, sqrt).Numbers?
    ensures forall i :: 0 <= i < |f.values| ==> Sum(Standardize(f, sqrt).frame.values[i]) == 0.0
  {
    forall i | 0 <= i < |f.values| ensures Sum(Standardize(f, sqrt).frame.values[i]) == 0.0 {
      StandardizedRowSumsToZero(f.values[i], sqrt);
    }
  }

  /** Log compression keeps the order of values when log10 is increasing on the
      positive reals, which is where every `v + 1` of a log-defined frame lies. */
  lemma LogCompressKeepsOrder(f: Frame, log10: real -> real, i: nat, j: nat, k: nat)
    requires Shaped(f) && LogDefined(f)
    requires forall x, y :: 0.0 < x < y ==> log10(x) < log10(y)
    requires i < |f.values| && j < |f.columns| && k < |f.columns|
    requires f.values[i][j] < f.values[i][k]
    ensures LogCompress(f, log10).values[i][j] < LogCompress(f, log10).values[i][k]
  {
  }
}
